=== FILE: README.md ===
# go-evaluate directive engine, modelled in Dafny

go-evaluate rewrites Go source files. It looks for a `const`/`var` declaration whose preceding comment ends in a line such as

    //go:evaluate date "+%Y-%m-%d %H:%M:%S %Z"

It runs that command and replaces the declaration's string literal with the quoted output.

This project models the engine in `evaluate.go`:

- **Directive recognition** (`isGoEvaluate` and the prefix strip), module `Directive`.
- **Comment binding** (`preComment`, and the last-line test in `evaluate`), module `Binding`. A comment group is bound to a declaration only when its end plus one is the declaration's position.
- **Command tokenizer** (`split`), module `Tokenizer`. Quoted words use backslash skipping and `strconv.Unquote`, plain words run to the next space or tab, and there are four syntax errors. Environment expansion is applied once per word, after tokenizing.
- **Rewriter** (`getValue` and `updateValue`), module `Rewrite`. Only a STRING basic literal is replaced, at its old position.
- **Binder loop** (`evaluate`), module `Evaluate`. Every spec of a `GenDecl` is bound through the `GenDecl`'s position, and the first error ends the run.
- **Session** (`Evaluate`), module `Session`. It runs parse, evaluate, print and write in that order, and the write happens only when every earlier step succeeded.

Supporting modules:

- `Wrappers` holds `Option` and `Result`.
- `Text` holds the `strings` functions used.
- `Errors` holds the error kinds.
- `Ast` holds the parsed file: declarations, specs, literals and comment groups with their end positions.
- `TokenizerProps` holds the tokenizer's properties.
- `Examples` holds concrete inputs, among them the directive of `testdata/sample.go`.

The engine's collaborators are parameters:

- `Rewrite.Host` carries the command runner (`exec.Command(...).CombinedOutput()` followed by `strings.TrimSpace`), `strconv.Unquote`, `strconv.Quote`, and `os.Expand` over the environment.
- `Session.Io` carries the parser, the printer and `ioutil.WriteFile`.

The Go code mutates the syntax tree in place. The model returns a new tree instead. On an error the Go tree is never printed, so nothing observable differs.

## Model

| member | source | states |
|---|---|---|
| Directive.IsGoEvaluate | evaluate.go:205-207 | a line is a directive exactly when it starts with `//go:evaluate` and the next character is a space or a tab |
| Directive.TagNeedsSeparator | evaluate.go:205-207 | the tag followed by `rest` is a directive iff `rest` starts with a blank, so the bare tag and `//go:evaluatex` are rejected |
| Directive.Command | evaluate.go:83 | the command is what follows the tag; it still starts with the separator |
| Directive.CommandAfterTag | evaluate.go:80-83 | stripping the tag from tag plus a blank-led `rest` recognises a directive and gives back exactly `rest` |
| Binding.FindAdjacent | evaluate.go:101-107 | the loop returns an index whose group ends one position before `pos`, with no such group before it; otherwise none exists from the start index on |
| Binding.PreComment | evaluate.go:100-108 | a group is returned iff some group is adjacent, and it is the first adjacent group in file order |
| Binding.BoundCommand | evaluate.go:76-83 | a command is bound iff the first adjacent group's last line is a directive; the command is that line minus the tag and starts with a blank; earlier lines are never consulted |
| Binding.NonAdjacentDirectiveIgnored | evaluate.go:100-108 | when no group ends exactly one position before the declaration, nothing is bound |
| Text.TrimLeft | evaluate.go:153 | the result is a suffix of the input, everything dropped is blank, and the result does not start with a blank |
| Text.IndexOfBlank | evaluate.go:186-189 | the index of the first space or tab, or the length when there is none; everything before it is blank-free |
| Text.TrimLeftBlanks | evaluate.go:153 | leading blanks in front of a string make no difference to the trim |
| Tokenizer.ScanQuoted | evaluate.go:159-184 | the scan closes at the first unescaped double quote; a backslash skips the next character; when it does not close, every quote is escaped, and it reports a dangling backslash iff the input ends in an unescaped backslash |
| Tokenizer.Tokenize | evaluate.go:151-156 | the tokenizer returns no words and no error exactly when the line is all spaces and tabs |
| Tokenizer.TokenizeWord | evaluate.go:151-192 | a round of the loop on a word-led input returns no words and no error only on empty input |
| Tokenizer.ExpandAll | evaluate.go:194-196 | each word is replaced by its expansion, in order, with the count unchanged |
| Tokenizer.Split | evaluate.go:148-199 | split fails iff tokenizing fails, with the same error; on success it has as many words as tokenizing found, each expanded exactly once |
| TokenizerProps.UnquotedTokenizeIsFields | evaluate.go:151-192 | when no word starts with a double quote (quotes inside a word are allowed), the tokenizer never fails and continues an independent character-by-character field scanner |
| TokenizerProps.UnquotedIsFields | evaluate.go:151-191 | when no word starts with a double quote, the words are exactly the maximal runs of non-blank characters, in order, quotes inside them kept verbatim |
| TokenizerProps.FieldsAreFields | evaluate.go:186-191 | every maximal run found by the reference scanner is non-empty and blank-free |
| TokenizerProps.FieldsFromWords | evaluate.go:186-191 | the reference scanner keeps the words it has and appends only non-empty, blank-free words |
| TokenizerProps.UnquotedWordsAreFields | evaluate.go:186-191 | when no word starts with a double quote, every word the tokenizer returns is non-empty and has no space or tab |
| TokenizerProps.JoinRoundTrip | evaluate.go:151-192 | any list of plain words joined with single spaces tokenizes back to the same words |
| TokenizerProps.QuotedFirst | evaluate.go:158-180 | a quoted span that `Unquote` accepts, followed by a blank or the end of input, becomes its unquoted word, and tokenizing goes on after it |
| TokenizerProps.MixedJoinRoundTrip | evaluate.go:151-192 | any list mixing plain words and quoted spans that `Unquote` accepts, joined with single spaces, tokenizes back to the plain words and the unquoted spans, in order |
| TokenizerProps.TokenizeTrimsLeft | evaluate.go:153 | leading spaces and tabs do not change the tokenizer's result |
| TokenizerProps.SpaceIsTrimmed | evaluate.go:83 | the separator left after the tag does not change the tokenizer's result |
| TokenizerProps.QuotedSpanCloses | evaluate.go:160-167 | an escaped quote does not close a quoted span; the scan closes at the span's own closing quote whatever follows |
| TokenizerProps.LeadingQuotedWord | evaluate.go:158-180 | a leading quoted span gives "bad quoted string" when `Unquote` rejects it, or "expect space" when a non-blank follows; otherwise the word is `Unquote` of the whole span, quotes included |
| TokenizerProps.UnclosedQuote | evaluate.go:160-184 | a quote with no unescaped closing quote gives "bad backslash" when the input ends in an unescaped backslash, and "mismatched quoted string" otherwise |
| Rewrite.GetValueAsWritten | evaluate.go:134-146 | `getValue` as written panics exactly when the command is all blanks |
| Rewrite.BlankDirectivePanics | evaluate.go:80-83 | the directive `//go:evaluate ` is accepted, and running it as written panics |
| Rewrite.GetValue | evaluate.go:134-146 | a syntax error is passed on unchanged; an all-blank command is an error; the runner only ever sees a non-empty word list; for a non-empty word list, a successful run returns its output and a failed run gives an exec error carrying the space-joined command line and the runner's cause |
| Rewrite.GetValueCorrectsOnlyThePanic | evaluate.go:134-146 | the corrected `getValue` agrees with the one as written wherever that one returns |
| Rewrite.UpdateValue | evaluate.go:110-132 | a runner error is returned before the literal is inspected; on success only the first value changes, to a STRING literal holding `Quote(output)` at the old position, with the names kept; a non-STRING literal or a non-literal is rejected |
| Rewrite.UpdateValueIdempotent | evaluate.go:110-132 | rewriting a rewritten spec with the same command and host, so with the command printing the same output, changes nothing more |
| Evaluate.EvalSpec | evaluate.go:75-90 | non-value specs and unbound specs are unchanged; a bound spec without exactly one name and one value fails; a bound single-value spec gets exactly the result of `updateValue` with its command, so the runner's error or the literal-kind error is the one reported, and on success the literal holds the quoted output |
| Evaluate.EvalSpecs | evaluate.go:74-93 | the inner loop succeeds iff every spec does, and then holds each spec's own rewrite, in order |
| Evaluate.EvalSpecsFirstFailure | evaluate.go:84-88 | a failing inner loop reports the error of the first failing spec |
| Evaluate.EvalDecl | evaluate.go:72-94 | a non-`GenDecl` is kept, as is an unbound `GenDecl`; every value spec of a bound `GenDecl` is rewritten by the one command bound to the group's position; a `GenDecl` fails exactly when its specs do |
| Evaluate.EvalDecls | evaluate.go:71-95 | the outer loop succeeds iff every declaration does, and then holds each declaration's own result, in order |
| Evaluate.EvalDeclsFirstFailure | evaluate.go:84-88 | a failing outer loop reports the error of the first failing declaration |
| Evaluate.EvaluateFile | evaluate.go:70-98 | the result keeps the comments and the number of declarations, changes each one only as a rewrite may, or reports the first error in file order |
| Evaluate.EvaluateIdempotent | evaluate.go:70-98 | running the binder on its own output tree with the same host, so with every command printing the same output, changes nothing |
| Evaluate.UnboundFileUnchanged | evaluate.go:76-80 | a file with no bound declaration comes back unchanged |
| Evaluate.MultiValueDirectiveFailsRun | evaluate.go:81-88 | a directive over a spec without exactly one name and one value fails the whole run |
| Evaluate.UnsupportedValueFailsRun | evaluate.go:116-130 | a directive over a single value that is not a STRING literal fails the whole run |
| Session.EvaluateSession | evaluate.go:45-68 | the write is attempted iff parsing, evaluating and printing succeeded, with the printed text and mode 0777; the session reports no error iff that write succeeded; parse and evaluation errors are passed on; printer and write errors are passed on as PrintError / WriteError with their cause |
| Session.SecondRunWritesSameText | evaluate.go:45-68 | if parsing the written file returns the evaluated tree unchanged, positions included, and every command prints the same output, a second session writes the same text |
| Examples.SampleDirectiveSplits | testdata/sample.go:19 | the sample directive is recognised, and its command splits into `date` and the unquoted format string |
| Examples.UnterminatedExample | evaluate.go:182-184 | `"unterminated` fails with "mismatched quoted string" |
| Examples.DanglingBackslashExample | evaluate.go:162-165 | `"abc\` fails with "bad backslash" |
| Examples.GluedQuoteExample | evaluate.go:175-177 | `"a"b` fails with "expect space after quoted argument" |
| Examples.GreetingRewritten | evaluate.go:70-132 | `//go:evaluate echo hello` right above `const Greeting = ""` gets the quoted output at the same position |
| Examples.BlankLineUnbinds | evaluate.go:100-108 | the same directive one line further up binds nothing, and the file is unchanged |
| Examples.IntegerTargetRejected | evaluate.go:125-126 | a directive above `const N = 42` fails with the non-string error |
| Examples.MultiValueRejected | evaluate.go:81-88 | a directive above `const A, B = "x", "y"` fails with the single-value error |

## Left out

- The subprocess started by `getValue` (`exec.Command`, `CombinedOutput`, `strings.TrimSpace`) is an operating-system call. It is the `run` field of `Rewrite.Host`. A failure reaches the model as its message text.
- The internals of `strconv.Unquote`, `strconv.Quote` and `os.Expand`/`os.Getenv` are library code. They are the `unquote`, `quote` and `expand` fields of `Rewrite.Host`, and the model assumes nothing about them.
- `go/parser`, `go/printer` and `ioutil.WriteFile` are library and I/O code. They are the fields of `Session.Io`. The tree is the `Ast.File` datatype, and the write is returned as a `Session.Write` record.
- `token.FileSet` and the line lookup that sets `v.line` only feed error messages. Positions are plain integers.
- `errorf` message formatting is left out. Errors are the constructors of `Errors.Error`, one per message.
- `Evaluation.Evaluate` stores the file name and the file set in the receiver. The model passes the file name as an argument. The file set is not modelled: positions are plain integers.
- Rewrite.Host: the runner is a pure function of the word list, while the source starts a new subprocess for every bound value spec. Two specs of one parenthesised group can therefore get different outputs from the same command (`date +%N`), which the model cannot express. Commands after the first failure are never started; the model has no notion of a command being started, only of its result. The idempotence lemmas hold only for commands that print the same output each time, which `date` does not.
- Session.SecondRunWritesSameText: positions after a rewrite are not modelled. When a rewrite changes a literal's length, every later comment end and declaration position shifts in the written file. In `testdata/sample.go`, `const GitHash = ""` grows to a 40-character hash ahead of the GitBranch directive. The lemma therefore takes as a premise that the re-parsed tree equals the evaluated one.
- `cmd/evaluate/main.go` is the command-line wrapper (`$GOFILE`, `log.Fatalln`), which is not part of this model.
- `evaluate_test.go` needs real subprocesses and files. Its sample input appears in `Examples`.
- Go strings are byte strings, while the model works on `seq<char>`. The engine only compares bytes with space, tab, double quote and backslash, which never occur inside a multi-byte UTF-8 sequence. Scanning characters therefore finds the same boundaries.

## Findings

| source | as written | input that shows it | evidently intended | confidence | as-written member | corrected member |
|---|---|---|---|---|---|---|
| evaluate.go:135-140 | `getValue` indexes `words[0]` without checking that `split` returned any word | the directive `//go:evaluate ` (tag plus one trailing space) on the line above `const X = ""`: it is a directive, its command splits into no words, and `words[0]` panics with an index out of range | an error value for an empty command, like the other malformed directives | high, not executed | Rewrite.GetValueAsWritten, Rewrite.BlankDirectivePanics | Rewrite.GetValue, Rewrite.GetValueCorrectsOnlyThePanic |

The rest of the model uses the corrected `Rewrite.GetValue`. An empty command there yields `EmptyCommand`.

=== FILE: ast.dfy ===
/** The part of a parsed Go file the directive engine looks at. Positions are
    `token.Pos` offsets into the file set. Expressions, specs and
    declarations the engine does not rewrite are reduced to a source-text
    placeholder, so "left unchanged" is observable for them; the `GenDecl`
    token (`const`, `var`, ...) and a `ValueSpec`'s type are not modelled,
    since the engine neither reads nor changes them. */
module Ast {

  /** `token.Kind` of a `BasicLit`. */
  datatype LitKind = Int | Float | Imag | Char | String

  /** An initializer expression: a basic literal, or anything else
      (identifier, call, composite literal, ...). */
  datatype Expr =
    | BasicLit(kind: LitKind, text: string, valuePos: int)
    | OtherExpr(source: string)

  /** A spec inside a `GenDecl`: a `ValueSpec` (const/var) or any other spec
      (import, type). */
  datatype Spec =
    | ValueSpec(names: seq<string>, values: seq<Expr>)
    | OtherSpec(source: string)

  /** A top-level declaration: a `GenDecl` with its starting position and its
      specs (several when parenthesised), or any other declaration (func). */
  datatype Decl =
    | GenDecl(pos: int, specs: seq<Spec>)
    | OtherDecl(source: string)

  /** A comment group: the position its last comment ends at, and the text of
      each comment (`//` included, as Go's `ast.Comment.Text` keeps it). */
  datatype CommentGroup = CommentGroup(end: int, lines: seq<string>)

  /** A parsed file: its declarations and all its comment groups, both in
      file order. */
  datatype File = File(decls: seq<Decl>, comments: seq<CommentGroup>)
}

=== FILE: binding.dfy ===
/** Binding a comment to the declaration it precedes (evaluate.go:
    `preComment`, and the directive test in `evaluate`). A comment group is
    bound to a declaration purely by position: the group's end plus one must
    be the declaration's start, so a blank line in between breaks the bond. */
module Binding {
  import opened Wrappers
  import opened Text
  import opened Ast
  import opened Directive

  /** Group `g` ends on the line right above a declaration starting at `pos`. */
  predicate Adjacent(g: CommentGroup, pos: int) {
    g.end + 1 == pos
  }

  /** Index `i` holds the first group, in file order, adjacent to `pos`. */
  predicate FirstAdjacent(comments: seq<CommentGroup>, pos: int, i: int) {
    && 0 <= i < |comments|
    && Adjacent(comments[i], pos)
    && forall j :: 0 <= j < i ==> !Adjacent(comments[j], pos)
  }

  /** The loop of `preComment`, from index `from` on. */
  function FindAdjacent(comments: seq<CommentGroup>, pos: int, from: nat): (r: Option<nat>)
    requires from <= |comments|
    decreases |comments| - from
    ensures r.Some? ==> from <= r.value < |comments| && Adjacent(comments[r.value], pos)
    ensures r.Some? ==> forall j :: from <= j < r.value ==> !Adjacent(comments[j], pos)
    ensures r.None? ==> forall j :: from <= j < |comments| ==> !Adjacent(comments[j], pos)
  {
    if from == |comments| then None
    else if Adjacent(comments[from], pos) then Some(from)
    else FindAdjacent(comments, pos, from + 1)
  }

  /** `preComment`: the first comment group adjacent to `pos`, or nil. */
  function PreComment(comments: seq<CommentGroup>, pos: int): (r: Option<CommentGroup>)
    ensures r.Some? <==> exists i :: FirstAdjacent(comments, pos, i)
    ensures forall i :: FirstAdjacent(comments, pos, i) ==> r == Some(comments[i])
  {
    match FindAdjacent(comments, pos, 0)
    case None => None
    case Some(i) =>
      assert FirstAdjacent(comments, pos, i);
      Some(comments[i])
  }

  /** The command a declaration starting at `pos` is bound to: present when
      the LAST line of its preceding group is a directive. Earlier lines of
      the group are never looked at. */
  function BoundCommand(comments: seq<CommentGroup>, pos: int): (r: Option<string>)
    ensures r.Some? <==> exists i :: && FirstAdjacent(comments, pos, i)
                                     && |comments[i].lines| > 0
                                     && IsGoEvaluate(comments[i].lines[|comments[i].lines| - 1])
    ensures forall i :: FirstAdjacent(comments, pos, i) && r.Some? ==>
              Tag + r.value == comments[i].lines[|comments[i].lines| - 1]
    ensures r.Some? ==> r.value != [] && IsBlank(r.value[0])
  {
    match PreComment(comments, pos)
    case None => None
    case Some(g) =>
      if |g.lines| > 0 && IsGoEvaluate(g.lines[|g.lines| - 1])
      then Some(Command(g.lines[|g.lines| - 1]))
      else None
  }

  /** Adjacency precision: a directive group that does not end exactly one
      position before the declaration (a blank line in between, say) binds
      nothing, wherever else it sits in the file. */
  lemma NonAdjacentDirectiveIgnored(comments: seq<CommentGroup>, pos: int)
    requires forall i :: 0 <= i < |comments| ==> comments[i].end + 1 != pos
    ensures BoundCommand(comments, pos) == None
  {
  }
}

=== FILE: directive.dfy ===
/** Recognising a `//go:evaluate` directive and extracting its command
    (evaluate.go: `isGoEvaluate` and the `TrimPrefix` in `evaluate`). */
module Directive {
  import opened Text

  /** The directive tag, `GoEvaluate` in the source. */
  const Tag: string := "//go:evaluate"

  /** A comment line is a directive when it is the tag followed by one space
      or tab; the separator is mandatory. */
  function IsGoEvaluate(line: string): (r: bool)
    ensures r <==> |line| > |Tag| && line[..|Tag|] == Tag && IsBlank(line[|Tag|])
  {
    HasPrefix(line, Tag + " ") || HasPrefix(line, Tag + "\t")
  }

  /** Whatever follows the tag decides: the bare tag, or the tag glued to
      more text (`//go:evaluatex`), is not a directive. */
  lemma TagNeedsSeparator(rest: string)
    ensures IsGoEvaluate(Tag + rest) <==> rest != [] && IsBlank(rest[0])
  {
    assert (Tag + rest)[..|Tag|] == Tag;
    if rest != [] {
      assert (Tag + rest)[|Tag|] == rest[0];
    }
  }

  /** The command of a directive: the line with the tag stripped. The
      separator stays at its head; the tokenizer trims it. */
  function Command(line: string): (cmd: string)
    requires IsGoEvaluate(line)
    ensures Tag + cmd == line
    ensures cmd != [] && IsBlank(cmd[0])
  {
    TrimPrefix(line, Tag)
  }

  /** Stripping the tag gives back exactly what followed it. */
  lemma CommandAfterTag(rest: string)
    requires rest != [] && IsBlank(rest[0])
    ensures IsGoEvaluate(Tag + rest)
    ensures Command(Tag + rest) == rest
  {
    TagNeedsSeparator(rest);
    var cmd := Command(Tag + rest);
    assert cmd == (Tag + cmd)[|Tag|..];
    assert rest == (Tag + rest)[|Tag|..];
  }
}

=== FILE: errors.dfy ===
/** The error kinds the directive engine can return. Go's `errorf` renders each
    as a `file:line: message` string; only the kind is modelled. */
module Errors {

  /** The four ways a directive's command line can be malformed. */
  datatype SyntaxError =
    | BadBackslash           // "bad backslash": a backslash ends the input inside quotes
    | BadQuotedString        // "bad quoted string": Unquote rejected the quoted span
    | ExpectSpaceAfterQuote  // "expect space after quoted argument"
    | MismatchedQuote        // "mismatched quoted string": no closing quote

  datatype Error =
    | ParseError(cause: string)                 // go/parser rejected the file
    | Syntax(kind: SyntaxError)                 // the command line could not be split
    | EmptyCommand                              // the directive names no program
    | ExecError(commandLine: string, cause: string)  // "running %q: %s"
    | NonStringLiteral                          // "not support non string type value"
    | NonBasicLiteral                           // "not support non BasicLiteral expression"
    | MultiValueDeclaration                     // "only support single value declaration"
    | PrintError(cause: string)                 // go/printer failed
    | WriteError(cause: string)                 // writing the file back failed
}

=== FILE: evaluate.dfy ===
/** The binder loop (evaluate.go: `evaluate`). Every `ValueSpec` of every
    `GenDecl` is looked at in file order; the directive is looked up from the
    position of the enclosing `GenDecl`, so all specs of a parenthesised
    group share the group's directive. The first error ends the run. */
module Evaluate {
  import opened Wrappers
  import opened Text
  import opened Errors
  import opened Ast
  import opened Binding
  import opened Rewrite

  /** The only shape a directive may be attached to: one name, one value. */
  predicate SingleValue(spec: Spec)
    requires spec.ValueSpec?
  {
    |spec.names| == 1 && |spec.values| == 1
  }

  /** `updated` is the single-value `spec` whose STRING literal was replaced
      by the quoted output of `command`, at the literal's old position. */
  predicate RewrittenBy(command: string, host: Host, spec: Spec, updated: Spec) {
    && spec.ValueSpec? && SingleValue(spec) && IsStringLit(spec.values[0])
    && updated.ValueSpec? && |updated.values| == 1
    && GetValue(command, host).Success?
    && updated.values[0] == BasicLit(String, host.quote(GetValue(command, host).value), spec.values[0].valuePos)
  }

  /** The body of the inner loop for one spec of a `GenDecl` at `pos`. */
  function EvalSpec(comments: seq<CommentGroup>, pos: int, spec: Spec, host: Host): (r: Result<Spec, Error>)
    ensures r.Success? ==> RewriteOf(spec, r.value)
    ensures !spec.ValueSpec? || BoundCommand(comments, pos).None? ==> r == Success(spec)
    ensures spec.ValueSpec? && BoundCommand(comments, pos).Some? && !SingleValue(spec) ==>
              r == Failure(MultiValueDeclaration)
    ensures spec.ValueSpec? && BoundCommand(comments, pos).Some? && SingleValue(spec) ==>
              r == UpdateValue(BoundCommand(comments, pos).value, spec, host)
    ensures spec.ValueSpec? && BoundCommand(comments, pos).Some? && r.Success? ==>
              RewrittenBy(BoundCommand(comments, pos).value, host, spec, r.value)
  {
    if !spec.ValueSpec? then Success(spec)
    else match BoundCommand(comments, pos)
      case None => Success(spec)
      case Some(command) =>
        if |spec.names| == 1 && |spec.values| == 1 then UpdateValue(command, spec, host)
        else Failure(MultiValueDeclaration)
  }

  /** The inner loop over the specs of a `GenDecl` at `pos`: all succeed and
      are rewritten one by one, or the first failure is the result. */
  function EvalSpecs(comments: seq<CommentGroup>, pos: int, specs: seq<Spec>, host: Host)
    : (r: Result<seq<Spec>, Error>)
    ensures r.Success? <==> forall j :: 0 <= j < |specs| ==> EvalSpec(comments, pos, specs[j], host).Success?
    ensures r.Success? ==> |r.value| == |specs|
    ensures r.Success? ==> forall j :: 0 <= j < |specs| ==> EvalSpec(comments, pos, specs[j], host) == Success(r.value[j])
  {
    if specs == [] then Success([])
    else match EvalSpec(comments, pos, specs[0], host)
      case Failure(e) => Failure(e)
      case Success(s) =>
        match EvalSpecs(comments, pos, specs[1..], host)
        case Failure(e) => Failure(e)
        case Success(rest) => Success([s] + rest)
  }

  /** A failing inner loop reports the error of its first failing spec. */
  lemma {:induction false} EvalSpecsFirstFailure(comments: seq<CommentGroup>, pos: int, specs: seq<Spec>, host: Host)
    requires EvalSpecs(comments, pos, specs, host).Failure?
    ensures exists j :: && 0 <= j < |specs|
                        && EvalSpec(comments, pos, specs[j], host) == Failure(EvalSpecs(comments, pos, specs, host).error)
                        && forall k :: 0 <= k < j ==> EvalSpec(comments, pos, specs[k], host).Success?
  {
    var e := EvalSpecs(comments, pos, specs, host).error;
    if EvalSpec(comments, pos, specs[0], host).Failure? {
      assert EvalSpec(comments, pos, specs[0], host) == Failure(e);
    } else {
      EvalSpecsFirstFailure(comments, pos, specs[1..], host);
      var j :| && 0 <= j < |specs[1..]|
               && EvalSpec(comments, pos, specs[1..][j], host) == Failure(e)
               && forall k :: 0 <= k < j ==> EvalSpec(comments, pos, specs[1..][k], host).Success?;
      assert EvalSpec(comments, pos, specs[j + 1], host) == Failure(e);
      assert forall k :: 0 <= k < j + 1 ==> EvalSpec(comments, pos, specs[k], host).Success? by {
        forall k | 0 <= k < j + 1
          ensures EvalSpec(comments, pos, specs[k], host).Success?
        {
          if k > 0 {
            assert specs[k] == specs[1..][k - 1];
          }
        }
      }
    }
  }

  /** `decl` is `d` with at most some specs rewritten as `RewriteOf` allows;
      its kind, position and number of specs are kept. */
  predicate DeclRewriteOf(d: Decl, decl: Decl) {
    || (d.OtherDecl? && decl == d)
    || (&& d.GenDecl? && decl.GenDecl?
        && decl.pos == d.pos
        && |decl.specs| == |d.specs|
        && forall j :: 0 <= j < |d.specs| ==> RewriteOf(d.specs[j], decl.specs[j]))
  }

  /** The body of the outer loop for one declaration. */
  function EvalDecl(comments: seq<CommentGroup>, d: Decl, host: Host): (r: Result<Decl, Error>)
    ensures r.Success? ==> DeclRewriteOf(d, r.value)
    ensures d.OtherDecl? ==> r == Success(d)
    ensures d.GenDecl? && BoundCommand(comments, d.pos).None? ==> r == Success(d)
    ensures r.Success? && d.GenDecl? && BoundCommand(comments, d.pos).Some? ==>
              r.value.GenDecl? && |r.value.specs| == |d.specs| &&
              forall j :: 0 <= j < |d.specs| && d.specs[j].ValueSpec? ==>
                RewrittenBy(BoundCommand(comments, d.pos).value, host, d.specs[j], r.value.specs[j])
    ensures d.GenDecl? ==> (r.Success? <==> EvalSpecs(comments, d.pos, d.specs, host).Success?)
    ensures d.GenDecl? && r.Failure? ==> r.error == EvalSpecs(comments, d.pos, d.specs, host).error
  {
    match d
    case OtherDecl(_) => Success(d)
    case GenDecl(pos, specs) =>
      match EvalSpecs(comments, pos, specs, host)
      case Failure(e) => Failure(e)
      case Success(updated) =>
        assert BoundCommand(comments, pos).None? ==> updated == specs;
        Success(GenDecl(pos, updated))
  }

  /** The outer loop over the declarations. */
  function EvalDecls(comments: seq<CommentGroup>, decls: seq<Decl>, host: Host): (r: Result<seq<Decl>, Error>)
    ensures r.Success? <==> forall i :: 0 <= i < |decls| ==> EvalDecl(comments, decls[i], host).Success?
    ensures r.Success? ==> |r.value| == |decls|
    ensures r.Success? ==> forall i :: 0 <= i < |decls| ==> EvalDecl(comments, decls[i], host) == Success(r.value[i])
  {
    if decls == [] then Success([])
    else match EvalDecl(comments, decls[0], host)
      case Failure(e) => Failure(e)
      case Success(d) =>
        match EvalDecls(comments, decls[1..], host)
        case Failure(e) => Failure(e)
        case Success(rest) => Success([d] + rest)
  }

  /** A failing outer loop reports the error of its first failing declaration. */
  lemma {:induction false} EvalDeclsFirstFailure(comments: seq<CommentGroup>, decls: seq<Decl>, host: Host)
    requires EvalDecls(comments, decls, host).Failure?
    ensures exists i :: && 0 <= i < |decls|
                        && EvalDecl(comments, decls[i], host) == Failure(EvalDecls(comments, decls, host).error)
                        && forall k :: 0 <= k < i ==> EvalDecl(comments, decls[k], host).Success?
  {
    var e := EvalDecls(comments, decls, host).error;
    if EvalDecl(comments, decls[0], host).Failure? {
      assert EvalDecl(comments, decls[0], host) == Failure(e);
    } else {
      EvalDeclsFirstFailure(comments, decls[1..], host);
      var i :| && 0 <= i < |decls[1..]|
               && EvalDecl(comments, decls[1..][i], host) == Failure(e)
               && forall k :: 0 <= k < i ==> EvalDecl(comments, decls[1..][k], host).Success?;
      assert EvalDecl(comments, decls[i + 1], host) == Failure(e);
      assert forall k :: 0 <= k < i + 1 ==> EvalDecl(comments, decls[k], host).Success? by {
        forall k | 0 <= k < i + 1
          ensures EvalDecl(comments, decls[k], host).Success?
        {
          if k > 0 {
            assert decls[k] == decls[1..][k - 1];
          }
        }
      }
    }
  }

  /** `evaluate`: the file with every bound declaration rewritten, its
      comments untouched; or the first error in file order. */
  function EvaluateFile(file: File, host: Host): (r: Result<File, Error>)
    ensures r.Success? <==> forall i :: 0 <= i < |file.decls| ==> EvalDecl(file.comments, file.decls[i], host).Success?
    ensures r.Success? ==> r.value.comments == file.comments && |r.value.decls| == |file.decls|
    ensures r.Success? ==> forall i :: 0 <= i < |file.decls| ==> DeclRewriteOf(file.decls[i], r.value.decls[i])
    ensures r.Success? ==> forall i :: 0 <= i < |file.decls| ==>
              EvalDecl(file.comments, file.decls[i], host) == Success(r.value.decls[i])
    ensures r.Failure? ==> exists i :: && 0 <= i < |file.decls|
                                       && EvalDecl(file.comments, file.decls[i], host) == Failure(r.error)
                                       && forall k :: 0 <= k < i ==> EvalDecl(file.comments, file.decls[k], host).Success?
  {
    match EvalDecls(file.comments, file.decls, host)
    case Failure(e) =>
      EvalDeclsFirstFailure(file.comments, file.decls, host);
      Failure(e)
    case Success(decls) => Success(File(decls, file.comments))
  }

  /** A spec the loop accepted is accepted again, unchanged. */
  lemma EvalSpecIdempotent(comments: seq<CommentGroup>, pos: int, spec: Spec, host: Host)
    requires EvalSpec(comments, pos, spec, host).Success?
    ensures var s := EvalSpec(comments, pos, spec, host).value;
            EvalSpec(comments, pos, s, host) == Success(s)
  {
    var s := EvalSpec(comments, pos, spec, host).value;
    if spec.ValueSpec? && BoundCommand(comments, pos).Some? {
      UpdateValueIdempotent(BoundCommand(comments, pos).value, spec, host);
      assert SingleValue(s);
    }
  }

  lemma {:induction false} EvalSpecsIdempotent(comments: seq<CommentGroup>, pos: int, specs: seq<Spec>, host: Host)
    requires EvalSpecs(comments, pos, specs, host).Success?
    ensures var ss := EvalSpecs(comments, pos, specs, host).value;
            EvalSpecs(comments, pos, ss, host) == Success(ss)
  {
    var ss := EvalSpecs(comments, pos, specs, host).value;
    forall j | 0 <= j < |ss|
      ensures EvalSpec(comments, pos, ss[j], host) == Success(ss[j])
    {
      EvalSpecIdempotent(comments, pos, specs[j], host);
    }
    var again := EvalSpecs(comments, pos, ss, host).value;
    assert again == ss;
  }

  lemma EvalDeclIdempotent(comments: seq<CommentGroup>, d: Decl, host: Host)
    requires EvalDecl(comments, d, host).Success?
    ensures var d' := EvalDecl(comments, d, host).value;
            EvalDecl(comments, d', host) == Success(d')
  {
    if d.GenDecl? {
      EvalSpecsIdempotent(comments, d.pos, d.specs, host);
    }
  }

  /** Running the binder on its own output tree changes nothing, provided
      the commands print the same output again (the same `host`): every
      literal is rewritten to the text it already has. */
  lemma {:induction false} EvaluateIdempotent(file: File, host: Host)
    requires EvaluateFile(file, host).Success?
    ensures EvaluateFile(EvaluateFile(file, host).value, host) == EvaluateFile(file, host)
  {
    var f := EvaluateFile(file, host).value;
    forall i | 0 <= i < |f.decls|
      ensures EvalDecl(f.comments, f.decls[i], host) == Success(f.decls[i])
    {
      EvalDeclIdempotent(file.comments, file.decls[i], host);
    }
    var again := EvaluateFile(f, host).value;
    assert again.decls == f.decls;
  }

  /** Adjacency precision at file level: when no declaration has a directive
      in the comment group ending right before it, the file is unchanged. */
  lemma UnboundFileUnchanged(file: File, host: Host)
    requires forall i :: 0 <= i < |file.decls| && file.decls[i].GenDecl? ==>
               BoundCommand(file.comments, file.decls[i].pos).None?
    ensures EvaluateFile(file, host) == Success(file)
  {
    var f := EvaluateFile(file, host).value;
    assert f.decls == file.decls;
  }

  /** A directive over a declaration without exactly one name and one value
      fails the whole run, whatever else the file holds. */
  lemma MultiValueDirectiveFailsRun(file: File, host: Host, i: int, j: int)
    requires 0 <= i < |file.decls| && file.decls[i].GenDecl?
    requires BoundCommand(file.comments, file.decls[i].pos).Some?
    requires 0 <= j < |file.decls[i].specs| && file.decls[i].specs[j].ValueSpec?
    requires !SingleValue(file.decls[i].specs[j])
    ensures EvaluateFile(file, host).Failure?
  {
    var d := file.decls[i];
    assert EvalSpec(file.comments, d.pos, d.specs[j], host).Failure?;
    assert EvalDecl(file.comments, d, host).Failure?;
  }

  /** A directive over a single non-string literal, or over a non-literal,
      fails the whole run, unless an earlier error or its own command's
      failure was reported first. */
  lemma UnsupportedValueFailsRun(file: File, host: Host, i: int, j: int)
    requires 0 <= i < |file.decls| && file.decls[i].GenDecl?
    requires BoundCommand(file.comments, file.decls[i].pos).Some?
    requires 0 <= j < |file.decls[i].specs| && file.decls[i].specs[j].ValueSpec?
    requires SingleValue(file.decls[i].specs[j])
    requires !IsStringLit(file.decls[i].specs[j].values[0])
    ensures EvaluateFile(file, host).Failure?
  {
    var d := file.decls[i];
    assert EvalSpec(file.comments, d.pos, d.specs[j], host).Failure?;
    assert EvalDecl(file.comments, d, host).Failure?;
  }
}

=== FILE: examples.dfy ===
/** Concrete inputs, among them the directive of the repository's sample
    file (testdata/sample.go line 19). */
module Examples {
  import opened Wrappers
  import opened Text
  import opened Errors
  import opened Ast
  import opened Directive
  import opened Binding
  import opened Tokenizer
  import opened TokenizerProps
  import opened Rewrite
  import opened Evaluate

  /** `//go:evaluate date "+%Y-%m-%d %H:%M:%S %Z"`, built from its parts. */
  const SampleFormat: string := "+%Y-%m-%d %H:%M:%S %Z"
  const SampleQuoted: string := "\"" + SampleFormat + "\""
  const SampleCommand: string := " " + ("date" + (" " + SampleQuoted))
  const SampleLine: string := Tag + SampleCommand

  lemma SampleCommandIsRest()
    ensures IsGoEvaluate(SampleLine)
    ensures Command(SampleLine) == SampleCommand
  {
    assert SampleCommand[0] == ' ';
    CommandAfterTag(SampleCommand);
  }

  lemma SampleQuotedIsSpan()
    ensures QuotedSpan(SampleQuoted)
  {
    assert SampleQuoted[|SampleQuoted| - 2] == 'Z';
  }

  lemma {:induction false} BlankWordRest(w: string, tail: string, unquote: string -> Option<string>)
    requires PlainWord(w) && tail != [] && IsBlank(tail[0])
    ensures Tokenize(" " + (w + tail), unquote) == Prepend(w, Tokenize(tail, unquote))
  {
    SpaceIsTrimmed(w + tail, unquote);
    PlainWordFirst(w, tail, unquote);
  }

  lemma {:induction false} BlankQuotedOnly(q: string, unquote: string -> Option<string>)
    requires QuotedSpan(q) && unquote(q).Some?
    ensures Tokenize(" " + q, unquote) == Prepend(unquote(q).value, Tokenize([], unquote))
  {
    SpaceIsTrimmed(q, unquote);
    var e: string := [];
    LeadingQuotedWord(e, q, e, unquote);
    assert e + q + e == q;
  }

  /** A blank, a plain word, a blank and a quoted word: the shape of the
      sample command. */
  lemma {:induction false} WordThenQuoted(w: string, q: string, unquote: string -> Option<string>)
    requires PlainWord(w) && QuotedSpan(q) && unquote(q).Some?
    ensures Tokenize(" " + (w + (" " + q)), unquote) == Success([w, unquote(q).value])
  {
    BlankWordRest(w, " " + q, unquote);
    BlankQuotedOnly(q, unquote);
    assert Tokenize([], unquote) == Success([]);
    assert [unquote(q).value] + [] == [unquote(q).value];
    assert [w] + [unquote(q).value] == [w, unquote(q).value];
  }

  lemma SampleTokenize(unquote: string -> Option<string>)
    requires unquote(SampleQuoted) == Some(SampleFormat)
    ensures Tokenize(" " + ("date" + (" " + SampleQuoted)), unquote) == Success(["date", SampleFormat])
  {
    SampleQuotedIsSpan();
    assert PlainWord("date");
    WordThenQuoted("date", SampleQuoted, unquote);
  }

  /** The sample directive is recognised and its command splits into the
      program and the unquoted format, given that `Unquote` decodes the
      quoted format and expansion leaves `$`-free words alone. */
  lemma SampleDirectiveSplits(unquote: string -> Option<string>, expand: string -> string)
    requires unquote(SampleQuoted) == Some(SampleFormat)
    requires expand("date") == "date" && expand(SampleFormat) == SampleFormat
    ensures IsGoEvaluate(SampleLine)
    ensures Split(Command(SampleLine), unquote, expand) == Success(["date", SampleFormat])
  {
    SampleCommandIsRest();
    assert PlainWord("date");
    SampleTokenize(unquote);
    SplitTwo(Command(SampleLine), "date", SampleFormat, unquote, expand);
  }

  /** A quote that is never closed. */
  lemma UnterminatedExample(unquote: string -> Option<string>)
    ensures Tokenize("\"unterminated", unquote) == Failure(MismatchedQuote)
  {
    var q := "\"unterminated";
    assert q[1..] == "unterminated";
    assert '"' !in q[1..];
    assert q[|q| - 1] == 'd';
    UnclosedQuoteNoQuotes(q, unquote);
  }

  /** A quoted word whose input ends in a lone backslash. */
  lemma DanglingBackslashExample(unquote: string -> Option<string>)
    ensures Tokenize("\"abc\\", unquote) == Failure(BadBackslash)
  {
    var q := "\"abc\\";
    assert q[|q| - 1] == '\\' && q[|q| - 2] == 'c';
    assert BackslashRun(q, |q| - 1) == 0;
    assert q[1..] == "abc\\";
    assert '"' !in q[1..];
    UnclosedQuoteNoQuotes(q, unquote);
  }

  /** A closing quote glued to the next word. */
  lemma GluedQuoteExample(unquote: string -> Option<string>)
    requires unquote("\"a\"").Some?
    ensures Tokenize("\"a\"b", unquote) == Failure(ExpectSpaceAfterQuote)
  {
    var e: string := [];
    var q := "\"a\"";
    assert q[1] == 'a';
    assert BackslashRun(q, 2) == 0;
    assert QuotedSpan(q);
    LeadingQuotedWord(e, q, "b", unquote);
    assert e + q + "b" == "\"a\"b";
  }

  /** `UnclosedQuote` for a quoted word with no further quote at all. */
  lemma UnclosedQuoteNoQuotes(q: string, unquote: string -> Option<string>)
    requires q != [] && q[0] == '"' && '"' !in q[1..]
    ensures q[|q| - 1] == '\\' && !Escaped(q, |q| - 1) ==> Tokenize(q, unquote) == Failure(BadBackslash)
    ensures !(q[|q| - 1] == '\\' && !Escaped(q, |q| - 1)) ==> Tokenize(q, unquote) == Failure(MismatchedQuote)
  {
    forall k | 1 <= k < |q| ensures q[k] != '"' {
      assert q[k] == q[1..][k - 1];
    }
    var e: string := [];
    UnclosedQuote(e, q, unquote);
    assert e + q == q;
  }

  const GreetingDirective: string := "//go:evaluate echo hello"

  /** A file holding one comment group, the directive, ending at `end`, and
      one `const` declaration starting at `end + gap` with the given spec. */
  function OneDeclFile(end: int, gap: int, spec: Spec): File
  {
    File([GenDecl(end + gap, [spec])], [CommentGroup(end, [GreetingDirective])])
  }

  lemma GreetingCommand()
    ensures IsGoEvaluate(GreetingDirective)
    ensures Command(GreetingDirective) == " echo hello"
  {
    assert GreetingDirective == Tag + " echo hello";
    CommandAfterTag(" echo hello");
  }

  lemma GreetingBound(end: int, gap: int, spec: Spec)
    ensures gap == 1 ==> BoundCommand(OneDeclFile(end, gap, spec).comments, end + gap) == Some(" echo hello")
    ensures gap != 1 ==> BoundCommand(OneDeclFile(end, gap, spec).comments, end + gap) == None
  {
    GreetingCommand();
    var comments := OneDeclFile(end, gap, spec).comments;
    if gap == 1 {
      assert FirstAdjacent(comments, end + gap, 0);
    }
  }

  /** A blank and two plain words separated by one blank. */
  lemma {:induction false} TwoPlainWords(a: string, b: string, unquote: string -> Option<string>)
    requires PlainWord(a) && PlainWord(b)
    ensures Tokenize(" " + (a + (" " + b)), unquote) == Success([a, b])
  {
    BlankWordRest(a, " " + b, unquote);
    SpaceIsTrimmed(b, unquote);
    JoinSingle(b, unquote);
    assert Join([b], " ") == b;
    assert [a] + [b] == [a, b];
  }

  /** Splitting a two-word command expands each word. */
  lemma SplitTwo(line: string, a: string, b: string, unquote: string -> Option<string>, expand: string -> string)
    requires Tokenize(line, unquote) == Success([a, b])
    ensures Split(line, unquote, expand) == Success([expand(a), expand(b)])
  {
    var r := Split(line, unquote, expand);
    assert r.Success? && |r.value| == 2;
    assert r.value[0] == expand(a) && r.value[1] == expand(b);
    assert r.value == [expand(a), expand(b)];
  }

  lemma GreetingSplit(unquote: string -> Option<string>, expand: string -> string)
    requires expand("echo") == "echo" && expand("hello") == "hello"
    ensures Split(" echo hello", unquote, expand) == Success(["echo", "hello"])
  {
    assert PlainWord("echo") && PlainWord("hello");
    assert " " + ("echo" + (" " + "hello")) == " echo hello";
    TwoPlainWords("echo", "hello", unquote);
    SplitTwo(" echo hello", "echo", "hello", unquote, expand);
  }

  lemma GreetingSpecRewritten(host: Host, end: int, valuePos: int)
    requires host.expand("echo") == "echo" && host.expand("hello") == "hello"
    requires host.run(["echo", "hello"]) == Success("hello")
    ensures var spec := ValueSpec(["Greeting"], [BasicLit(String, "\"\"", valuePos)]);
            EvalSpec(OneDeclFile(end, 1, spec).comments, end + 1, spec, host)
            == Success(ValueSpec(["Greeting"], [BasicLit(String, host.quote("hello"), valuePos)]))
  {
    var spec := ValueSpec(["Greeting"], [BasicLit(String, "\"\"", valuePos)]);
    GreetingBound(end, 1, spec);
    assert EvalSpec(OneDeclFile(end, 1, spec).comments, end + 1, spec, host) == UpdateValue(" echo hello", spec, host);
    GreetingUpdate(host, valuePos);
  }

  lemma GreetingUpdate(host: Host, valuePos: int)
    requires host.expand("echo") == "echo" && host.expand("hello") == "hello"
    requires host.run(["echo", "hello"]) == Success("hello")
    ensures UpdateValue(" echo hello", ValueSpec(["Greeting"], [BasicLit(String, "\"\"", valuePos)]), host)
            == Success(ValueSpec(["Greeting"], [BasicLit(String, host.quote("hello"), valuePos)]))
  {
    GreetingValue(host);
    var spec := ValueSpec(["Greeting"], [BasicLit(String, "\"\"", valuePos)]);
    var updated := UpdateValue(" echo hello", spec, host);
    assert updated.value.values == [BasicLit(String, host.quote("hello"), valuePos)];
  }

  lemma GreetingValue(host: Host)
    requires host.expand("echo") == "echo" && host.expand("hello") == "hello"
    requires host.run(["echo", "hello"]).Success?
    ensures GetValue(" echo hello", host) == Success(host.run(["echo", "hello"]).value)
  {
    GreetingSplit(host.unquote, host.expand);
  }

  /** End to end: `//go:evaluate echo hello` directly above
      `const Greeting = ""` turns the literal into the quoted output of the
      command at the same position, and leaves the comments alone. */
  lemma GreetingRewritten(host: Host, end: int, valuePos: int)
    requires host.expand("echo") == "echo" && host.expand("hello") == "hello"
    requires host.run(["echo", "hello"]) == Success("hello")
    ensures var file := OneDeclFile(end, 1, ValueSpec(["Greeting"], [BasicLit(String, "\"\"", valuePos)]));
            EvaluateFile(file, host)
            == Success(File([GenDecl(end + 1, [ValueSpec(["Greeting"], [BasicLit(String, host.quote("hello"), valuePos)])])],
                            file.comments))
  {
    var spec := ValueSpec(["Greeting"], [BasicLit(String, "\"\"", valuePos)]);
    var updated := ValueSpec(["Greeting"], [BasicLit(String, host.quote("hello"), valuePos)]);
    var file := OneDeclFile(end, 1, spec);
    GreetingSpecRewritten(host, end, valuePos);
    var specs := EvalSpecs(file.comments, end + 1, [spec], host);
    assert specs.Success? && specs.value == [updated];
    assert EvalDecl(file.comments, file.decls[0], host) == Success(GenDecl(end + 1, [updated]));
    var r := EvaluateFile(file, host);
    assert r.Success? && r.value.decls == [GenDecl(end + 1, [updated])];
  }

  /** The same directive separated from the declaration by a blank line
      binds nothing: the file comes back unchanged. */
  lemma BlankLineUnbinds(host: Host, end: int, valuePos: int)
    ensures var file := OneDeclFile(end, 2, ValueSpec(["Greeting"], [BasicLit(String, "\"\"", valuePos)]));
            EvaluateFile(file, host) == Success(file)
  {
    var spec := ValueSpec(["Greeting"], [BasicLit(String, "\"\"", valuePos)]);
    GreetingBound(end, 2, spec);
    UnboundFileUnchanged(OneDeclFile(end, 2, spec), host);
  }

  /** A directive above `const N = 42` fails the run once its command has
      run: only STRING literals are rewritten. */
  lemma IntegerTargetRejected(host: Host, end: int, valuePos: int)
    requires host.expand("echo") == "echo" && host.expand("hello") == "hello"
    requires host.run(["echo", "hello"]).Success?
    ensures EvaluateFile(OneDeclFile(end, 1, ValueSpec(["N"], [BasicLit(Int, "42", valuePos)])), host)
            == Failure(NonStringLiteral)
  {
    var spec := ValueSpec(["N"], [BasicLit(Int, "42", valuePos)]);
    GreetingBound(end, 1, spec);
    GreetingValue(host);
    assert EvalSpec(OneDeclFile(end, 1, spec).comments, end + 1, spec, host) == Failure(NonStringLiteral);
  }

  /** A directive above `const A, B = "x", "y"` fails the run. */
  lemma MultiValueRejected(host: Host, end: int, p: int, p': int)
    ensures EvaluateFile(OneDeclFile(end, 1, ValueSpec(["A", "B"], [BasicLit(String, "\"x\"", p), BasicLit(String, "\"y\"", p')])), host)
            == Failure(MultiValueDeclaration)
  {
    var spec := ValueSpec(["A", "B"], [BasicLit(String, "\"x\"", p), BasicLit(String, "\"y\"", p')]);
    GreetingBound(end, 1, spec);
    assert EvalSpec(OneDeclFile(end, 1, spec).comments, end + 1, spec, host) == Failure(MultiValueDeclaration);
  }
}

=== FILE: rewrite.dfy ===
/** Running a directive's command and rewriting the declaration's literal
    (evaluate.go: `getValue` and `updateValue`). The subprocess, Go's
    `strconv.Quote`/`Unquote` and `os.Expand` over the environment are
    outside the model and reach it as the fields of a `Host`. */
module Rewrite {
  import opened Wrappers
  import opened Text
  import opened Errors
  import opened Ast
  import opened Directive
  import opened Tokenizer

  /** The library and operating-system facilities the engine calls:
      - `run`: `exec.Command(words[0], words[1:]...).CombinedOutput()` followed
        by `strings.TrimSpace`, failing with the cause's text;
      - `unquote`: `strconv.Unquote`, `None` for an invalid literal;
      - `quote`: `strconv.Quote`;
      - `expand`: `os.Expand(word, os.Getenv)` over the process environment. */
  datatype Host = Host(
    run: seq<string> -> Result<string, string>,
    unquote: string -> Option<string>,
    quote: string -> string,
    expand: string -> string)

  /** How a Go call ends: it returns, or it panics. */
  datatype Exit<+T> = Returned(result: T) | Panicked

  /** `getValue` as written: the words of the command are split and
      `words[0]` is taken unconditionally, which panics when the command is
      all blanks. */
  function GetValueAsWritten(command: string, host: Host): (r: Exit<Result<string, Error>>)
    ensures r.Panicked? <==> AllBlank(command)
  {
    match Split(command, host.unquote, host.expand)
    case Failure(e) => Returned(Failure(Syntax(e)))
    case Success(words) =>
      if |words| == 0 then Panicked
      else match host.run(words)
        case Failure(cause) => Returned(Failure(ExecError(Join(words, " "), cause)))
        case Success(out) => Returned(Success(out))
  }

  /** A directive made of the tag and a separator only is a directive, and
      running it as written panics instead of returning an error. */
  lemma BlankDirectivePanics(host: Host)
    ensures IsGoEvaluate("//go:evaluate ")
    ensures GetValueAsWritten(Command("//go:evaluate "), host).Panicked?
  {
    assert "//go:evaluate " == Tag + " ";
    assert Command("//go:evaluate ") == " ";
  }

  /** `getValue`, corrected: a command with no words is an error value
      rather than a panic. Otherwise the command is split, a syntax error is
      returned as is, the runner is given the words, and its failure is
      reported with the command line joined by spaces. The runner is never
      called with an empty word list. */
  function GetValue(command: string, host: Host): (r: Result<string, Error>)
    ensures Tokenize(command, host.unquote).Failure? ==>
              r == Failure(Syntax(Tokenize(command, host.unquote).error))
    ensures r == Failure(EmptyCommand) <==> AllBlank(command)
    ensures r.Success? ==> var words := Split(command, host.unquote, host.expand);
              words.Success? && |words.value| >= 1 && host.run(words.value) == Success(r.value)
    ensures r.Failure? && r.error.ExecError? ==> var words := Split(command, host.unquote, host.expand);
              words.Success? && |words.value| >= 1 && host.run(words.value) == Failure(r.error.cause)
              && r.error.commandLine == Join(words.value, " ")
    ensures var words := Split(command, host.unquote, host.expand);
              words.Success? && |words.value| >= 1 ==>
                r == (if host.run(words.value).Success? then Success(host.run(words.value).value)
                      else Failure(ExecError(Join(words.value, " "), host.run(words.value).error)))
  {
    match Split(command, host.unquote, host.expand)
    case Failure(e) => Failure(Syntax(e))
    case Success(words) =>
      if |words| == 0 then Failure(EmptyCommand)
      else match host.run(words)
        case Failure(cause) => Failure(ExecError(Join(words, " "), cause))
        case Success(out) => Success(out)
  }

  /** The correction changes nothing but the panic. */
  lemma GetValueCorrectsOnlyThePanic(command: string, host: Host)
    ensures GetValueAsWritten(command, host).Returned? ==>
              GetValueAsWritten(command, host).result == GetValue(command, host)
    ensures GetValueAsWritten(command, host).Panicked? ==> GetValue(command, host) == Failure(EmptyCommand)
  {
  }

  /** The literal a rewrite may touch: a STRING `BasicLit`. */
  predicate IsStringLit(e: Expr) {
    e.BasicLit? && e.kind == String
  }

  /** `updated` is `spec` with at most its first value replaced by a STRING
      literal at the original literal's position; names and every other
      value are kept. */
  predicate RewriteOf(spec: Spec, updated: Spec) {
    || updated == spec
    || (&& spec.ValueSpec? && updated.ValueSpec?
        && updated.names == spec.names
        && |spec.values| >= 1 && |updated.values| == |spec.values|
        && updated.values[1..] == spec.values[1..]
        && IsStringLit(spec.values[0]) && IsStringLit(updated.values[0])
        && updated.values[0].valuePos == spec.values[0].valuePos)
  }

  /** `updateValue`: runs the command first, so a command error wins over an
      unsupported value; then replaces a STRING literal by the quoted output
      at the same position, and rejects any other literal kind and any
      non-literal expression. */
  function UpdateValue(command: string, spec: Spec, host: Host): (r: Result<Spec, Error>)
    requires spec.ValueSpec? && |spec.values| >= 1
    ensures GetValue(command, host).Failure? ==> r == Failure(GetValue(command, host).error)
    ensures r.Success? <==> GetValue(command, host).Success? && IsStringLit(spec.values[0])
    ensures r.Success? ==> RewriteOf(spec, r.value)
    ensures r.Success? ==> r.value.values[0].text == host.quote(GetValue(command, host).value)
    ensures GetValue(command, host).Success? && spec.values[0].BasicLit? && spec.values[0].kind != String ==>
              r == Failure(NonStringLiteral)
    ensures GetValue(command, host).Success? && !spec.values[0].BasicLit? ==> r == Failure(NonBasicLiteral)
  {
    match GetValue(command, host)
    case Failure(e) => Failure(e)
    case Success(out) =>
      match spec.values[0]
      case BasicLit(kind, _, valuePos) =>
        if kind == String then
          Success(spec.(values := spec.values[0 := BasicLit(String, host.quote(out), valuePos)]))
        else Failure(NonStringLiteral)
      case OtherExpr(_) => Failure(NonBasicLiteral)
  }

  /** Rewriting an already rewritten declaration with the same command and
      host changes nothing more. This is stability of a second run only
      when the command prints the same output again, which a command such
      as `date` does not. */
  lemma UpdateValueIdempotent(command: string, spec: Spec, host: Host)
    requires spec.ValueSpec? && |spec.values| >= 1
    requires UpdateValue(command, spec, host).Success?
    ensures UpdateValue(command, UpdateValue(command, spec, host).value, host) == UpdateValue(command, spec, host)
  {
    var s1 := UpdateValue(command, spec, host).value;
    var s2 := UpdateValue(command, s1, host).value;
    assert s2.values == s1.values;
  }
}

=== FILE: session.dfy ===
/** One evaluation session (evaluate.go: `Evaluation.Evaluate`): parse the
    file, run the binder, print the tree, write the text back. Parsing,
    printing and the file write are library and I/O code outside the model;
    they reach it as the fields of `Io`, and the write is recorded as the
    effect the session asks for. */
module Session {
  import opened Wrappers
  import opened Errors
  import opened Ast
  import opened Rewrite
  import opened Evaluate

  /** `fs.ModePerm`, the mode the file is written with: 0777. */
  const ModePerm: nat := 0x1FF

  /** - `parse`: `parser.ParseFile` with comments, by file name;
      - `render`: `printer.Fprint` of the tree;
      - `write`: `ioutil.WriteFile(path, content, mode)`. */
  datatype Io = Io(
    parse: string -> Result<File, string>,
    render: File -> Result<string, string>,
    write: (string, string, nat) -> Result<(), string>)

  /** The file write a session performs. */
  datatype Write = Write(path: string, content: string, mode: nat)

  /** What a session did: the write it performed, if any, and its error. */
  datatype Outcome = Outcome(write: Option<Write>, err: Option<Error>)

  /** `Evaluate(filename)`: each step runs only when the earlier ones
      succeeded, so the file is written at most once, only from a fully
      evaluated tree, and never when any step before the write failed. */
  function EvaluateSession(filename: string, io: Io, host: Host): (r: Outcome)
    ensures r.write.Some? <==> && io.parse(filename).Success?
                               && EvaluateFile(io.parse(filename).value, host).Success?
                               && io.render(EvaluateFile(io.parse(filename).value, host).value).Success?
    ensures r.write.Some? ==> r.write.value == Write(filename,
              io.render(EvaluateFile(io.parse(filename).value, host).value).value, ModePerm)
    ensures r.err.None? <==> r.write.Some? && io.write(r.write.value.path, r.write.value.content, ModePerm).Success?
    ensures io.parse(filename).Failure? ==> r.err == Some(ParseError(io.parse(filename).error))
    ensures io.parse(filename).Success? && EvaluateFile(io.parse(filename).value, host).Failure? ==>
              r.err == Some(EvaluateFile(io.parse(filename).value, host).error)
    ensures && io.parse(filename).Success?
            && EvaluateFile(io.parse(filename).value, host).Success?
            && io.render(EvaluateFile(io.parse(filename).value, host).value).Failure? ==>
              r.err == Some(PrintError(io.render(EvaluateFile(io.parse(filename).value, host).value).error))
    ensures r.write.Some? && io.write(r.write.value.path, r.write.value.content, ModePerm).Failure? ==>
              r.err == Some(WriteError(io.write(r.write.value.path, r.write.value.content, ModePerm).error))
  {
    match io.parse(filename)
    case Failure(cause) => Outcome(None, Some(ParseError(cause)))
    case Success(tree) =>
      match EvaluateFile(tree, host)
      case Failure(e) => Outcome(None, Some(e))
      case Success(evaluated) =>
        match io.render(evaluated)
        case Failure(cause) => Outcome(None, Some(PrintError(cause)))
        case Success(code) =>
          var w := Write(filename, code, ModePerm);
          match io.write(w.path, w.content, w.mode)
          case Failure(cause) => Outcome(Some(w), Some(WriteError(cause)))
          case Success(_) => Outcome(Some(w), None)
  }

  /** If parsing the written file gives back the evaluated tree unchanged,
      positions included, and every command prints the same output as
      before (the same `host`), a second session writes the same text
      again. Neither premise holds in general: a rewrite that changes a
      literal's length shifts every later position, and a command such as
      `date` prints something new each time. */
  lemma SecondRunWritesSameText(filename: string, io: Io, io': Io, host: Host)
    requires EvaluateSession(filename, io, host).write.Some?
    requires io'.parse(filename) == Success(EvaluateFile(io.parse(filename).value, host).value)
    requires io'.render == io.render
    ensures EvaluateSession(filename, io', host).write == EvaluateSession(filename, io, host).write
  {
    EvaluateIdempotent(io.parse(filename).value, host);
  }
}

=== FILE: text.dfy ===
/** The handful of Go `strings` functions the engine uses, over `seq<char>`.
    Go strings are bytes, but the engine only compares against the ASCII
    characters space, tab, double quote and backslash, which never occur
    inside a multi-byte UTF-8 sequence, so working on characters changes
    nothing. */
module Text {

  /** The separators of the directive mini-language: `" \t"`. */
  predicate IsBlank(c: char) {
    c == ' ' || c == '\t'
  }

  predicate AllBlank(s: string) {
    forall k :: 0 <= k < |s| ==> IsBlank(s[k])
  }

  /** `strings.HasPrefix`. */
  predicate HasPrefix(s: string, prefix: string) {
    |prefix| <= |s| && s[..|prefix|] == prefix
  }

  /** `strings.TrimPrefix`: drops `prefix` when `s` starts with it. */
  function TrimPrefix(s: string, prefix: string): (r: string)
    ensures HasPrefix(s, prefix) ==> prefix + r == s
    ensures !HasPrefix(s, prefix) ==> r == s
  {
    if HasPrefix(s, prefix) then s[|prefix|..] else s
  }

  /** `strings.TrimLeft(s, " \t")`: the suffix of `s` after its leading
      spaces and tabs. */
  function TrimLeft(s: string): (r: string)
    ensures |r| <= |s| && r == s[|s| - |r|..]
    ensures AllBlank(s[..|s| - |r|])
    ensures r == [] || !IsBlank(r[0])
  {
    if s != [] && IsBlank(s[0]) then TrimLeft(s[1..]) else s
  }

  /** `strings.IndexAny(s, " \t")`, with "not found" mapped to `len(s)` as
      the tokenizer does: the length of the longest blank-free prefix. */
  function IndexOfBlank(s: string): (i: nat)
    ensures i <= |s|
    ensures forall k :: 0 <= k < i ==> !IsBlank(s[k])
    ensures i == |s| || IsBlank(s[i])
  {
    if s == [] || IsBlank(s[0]) then 0 else 1 + IndexOfBlank(s[1..])
  }

  /** `strings.Join`. */
  function Join(words: seq<string>, sep: string): string
  {
    if words == [] then []
    else if |words| == 1 then words[0]
    else words[0] + sep + Join(words[1..], sep)
  }

  /** Leading blanks never reach the first character `TrimLeft` keeps. */
  lemma {:induction false} TrimLeftBlanks(blanks: string, s: string)
    requires AllBlank(blanks)
    ensures TrimLeft(blanks + s) == TrimLeft(s)
  {
    if blanks != [] {
      var t := blanks + s;
      assert t[0] == blanks[0];
      assert t[1..] == blanks[1..] + s;
      TrimLeftBlanks(blanks[1..], s);
    } else {
      assert blanks + s == s;
    }
  }
}

=== FILE: tokenizer.dfy ===
/** The directive's command-line tokenizer (evaluate.go: `split`).

    Words are separated by spaces and tabs. A word that starts with a double
    quote runs to the first unescaped double quote, where a backslash escapes
    the character after it; the whole span, quotes included, is decoded by
    `strconv.Unquote`. Any other word runs to the next space or tab and knows
    no escaping. Environment expansion is applied to every word once, after
    all words are collected. `Unquote` and `os.Expand` are library code and
    come in as function parameters. */
module Tokenizer {
  import opened Wrappers
  import opened Text
  import opened Errors

  /** The number of consecutive backslashes that end just before index `k`. */
  function BackslashRun(line: string, k: nat): (n: nat)
    requires k <= |line|
    ensures n <= k
  {
    if k == 0 || line[k - 1] != '\\' then 0 else 1 + BackslashRun(line, k - 1)
  }

  /** The character at `k` is escaped: an odd run of backslashes precedes it. */
  predicate Escaped(line: string, k: nat)
    requires k <= |line|
  {
    BackslashRun(line, k) % 2 == 1
  }

  /** What the inner scan of a quoted word finds. */
  datatype Scan = Closed(close: nat) | DanglingBackslash | Unterminated

  /** The inner `for` loop of `split` over a line starting with a double
      quote, from index `i` on: a backslash skips the next character, a
      backslash with nothing after it is an error, an unescaped double quote
      closes the word. */
  function ScanQuoted(line: string, i: nat): (r: Scan)
    requires 1 <= i <= |line|
    requires !Escaped(line, i)
    decreases |line| - i
    ensures r.Closed? ==> i <= r.close < |line| && line[r.close] == '"' && !Escaped(line, r.close)
    ensures r.Closed? ==> forall k :: i <= k < r.close && line[k] == '"' ==> Escaped(line, k)
    ensures !r.Closed? ==> forall k :: i <= k < |line| && line[k] == '"' ==> Escaped(line, k)
    ensures r.DanglingBackslash? <==> !r.Closed? && line[|line| - 1] == '\\' && !Escaped(line, |line| - 1)
  {
    if i == |line| then
      Unterminated
    else if line[i] == '\\' then
      if i + 1 == |line| then DanglingBackslash
      else
        assert BackslashRun(line, i + 1) == 1 + BackslashRun(line, i);
        ScanQuoted(line, i + 2)
    else if line[i] == '"' then
      Closed(i)
    else
      ScanQuoted(line, i + 1)
  }

  /** Adds `word` in front of the words a successful rest of the scan found. */
  function Prepend(word: string, rest: Result<seq<string>, SyntaxError>): (r: Result<seq<string>, SyntaxError>)
    ensures r.Success? <==> rest.Success?
    ensures r.Success? ==> r.value == [word] + rest.value
    ensures r.Failure? ==> r.error == rest.error
  {
    match rest
    case Success(words) => Success([word] + words)
    case Failure(e) => Failure(e)
  }

  /** The `process` loop of `split`: the words of `line` before expansion.
      Each round first strips the leading spaces and tabs. */
  function Tokenize(line: string, unquote: string -> Option<string>): (r: Result<seq<string>, SyntaxError>)
    decreases |line|, 1
    ensures r == Success([]) <==> AllBlank(line)
  {
    TokenizeWord(TrimLeft(line), unquote)
  }

  /** One round of the `process` loop on input that starts with a word. */
  function TokenizeWord(rest: string, unquote: string -> Option<string>): (r: Result<seq<string>, SyntaxError>)
    requires rest == [] || !IsBlank(rest[0])
    decreases |rest|, 0
    ensures r == Success([]) <==> rest == []
  {
    if rest == [] then
      Success([])
    else if rest[0] == '"' then
      match ScanQuoted(rest, 1)
      case DanglingBackslash => Failure(BadBackslash)
      case Unterminated => Failure(MismatchedQuote)
      case Closed(close) =>
        match unquote(rest[..close + 1])
        case None => Failure(BadQuotedString)
        case Some(word) =>
          var after := rest[close + 1..];
          if after != [] && !IsBlank(after[0]) then Failure(ExpectSpaceAfterQuote)
          else Prepend(word, Tokenize(after, unquote))
    else
      var i := IndexOfBlank(rest);
      Prepend(rest[..i], Tokenize(rest[i..], unquote))
  }

  /** `os.Expand` applied to each word, in order. */
  function ExpandAll(words: seq<string>, expand: string -> string): (r: seq<string>)
    ensures |r| == |words|
    ensures forall i :: 0 <= i < |words| ==> r[i] == expand(words[i])
  {
    if words == [] then [] else [expand(words[0])] + ExpandAll(words[1..], expand)
  }

  /** `split`: tokenize, then expand every word exactly once. A syntax error
      is reported before any expansion, and expansion never changes the
      number of words. */
  function Split(line: string, unquote: string -> Option<string>, expand: string -> string)
    : (r: Result<seq<string>, SyntaxError>)
    ensures r.Failure? <==> Tokenize(line, unquote).Failure?
    ensures r.Failure? ==> r.error == Tokenize(line, unquote).error
    ensures r.Success? ==> |r.value| == |Tokenize(line, unquote).value|
    ensures r.Success? ==> forall i :: 0 <= i < |r.value| ==>
              r.value[i] == expand(Tokenize(line, unquote).value[i])
  {
    match Tokenize(line, unquote)
    case Failure(e) => Failure(e)
    case Success(words) => Success(ExpandAll(words, expand))
  }
}

=== FILE: tokenizer_props.dfy ===
/** Properties of the tokenizer: agreement with an independent
    character-by-character field scanner on every line where no word starts
    with a double quote, a round trip through joining plain and quoted
    words, and the outcome of a leading quoted word. */
module TokenizerProps {
  import opened Wrappers
  import opened Text
  import opened Errors
  import opened Tokenizer

  /** A reference field scanner, one character at a time: `cur` is the word
      being built, `acc` the words finished so far. */
  function FieldsFrom(s: string, cur: string, acc: seq<string>): seq<string>
    decreases |s|
  {
    if s == [] then (if cur == [] then acc else acc + [cur])
    else if IsBlank(s[0]) then FieldsFrom(s[1..], [], if cur == [] then acc else acc + [cur])
    else FieldsFrom(s[1..], cur + [s[0]], acc)
  }

  /** The maximal runs of non-blank characters of `s`, in order. */
  function Fields(s: string): seq<string>
  {
    FieldsFrom(s, [], [])
  }

  /** A word of `Fields`: non-empty, with no space or tab in it. */
  predicate Field(w: string) {
    w != [] && forall k :: 0 <= k < |w| ==> !IsBlank(w[k])
  }

  /** The scanner keeps the words it has and adds only fields after them. */
  lemma {:induction false} FieldsFromWords(s: string, cur: string, acc: seq<string>)
    requires forall k :: 0 <= k < |cur| ==> !IsBlank(cur[k])
    requires forall i :: 0 <= i < |acc| ==> Field(acc[i])
    ensures |acc| <= |FieldsFrom(s, cur, acc)| && FieldsFrom(s, cur, acc)[..|acc|] == acc
    ensures forall i :: 0 <= i < |FieldsFrom(s, cur, acc)| ==> Field(FieldsFrom(s, cur, acc)[i])
    decreases |s|
  {
    if s != [] {
      if IsBlank(s[0]) {
        var acc' := if cur == [] then acc else acc + [cur];
        FieldsFromWords(s[1..], [], acc');
        assert acc'[..|acc|] == acc;
      } else {
        FieldsFromWords(s[1..], cur + [s[0]], acc);
      }
    }
  }

  /** Every word of `Fields(s)` is a field. */
  lemma FieldsAreFields(s: string)
    ensures forall i :: 0 <= i < |Fields(s)| ==> Field(Fields(s)[i])
  {
    FieldsFromWords(s, [], []);
  }

  /** No word of `s` starts with a double quote: every double quote follows
      a non-blank character. Quotes inside a word are allowed; `split` takes
      such a word verbatim. */
  predicate NoQuotedWord(s: string) {
    forall k :: 0 <= k < |s| ==> !StartsQuotedWord(s, k)
  }

  /** The double quote at `k` is the first character of a word. */
  predicate StartsQuotedWord(s: string, k: nat)
    requires k < |s|
  {
    s[k] == '"' && (k == 0 || IsBlank(s[k - 1]))
  }

  lemma {:induction false} FieldsSkipBlanks(blanks: string, s: string, acc: seq<string>)
    requires AllBlank(blanks)
    ensures FieldsFrom(blanks + s, [], acc) == FieldsFrom(s, [], acc)
  {
    if blanks == [] {
      assert blanks + s == s;
    } else {
      var t := blanks + s;
      assert t[0] == blanks[0];
      assert t[1..] == blanks[1..] + s;
      FieldsSkipBlanks(blanks[1..], s, acc);
    }
  }

  lemma {:induction false} FieldsTakeWord(w: string, s: string, cur: string, acc: seq<string>)
    requires forall k :: 0 <= k < |w| ==> !IsBlank(w[k])
    ensures FieldsFrom(w + s, cur, acc) == FieldsFrom(s, cur + w, acc)
  {
    if w == [] {
      assert w + s == s;
      assert cur + w == cur;
    } else {
      var t := w + s;
      assert t[0] == w[0];
      assert t[1..] == w[1..] + s;
      FieldsTakeWord(w[1..], s, cur + [w[0]], acc);
      assert cur + [w[0]] + w[1..] == cur + w;
    }
  }

  /** One round of the loop on an unquoted word. */
  lemma TokenizeWordPlain(rest: string, unquote: string -> Option<string>)
    requires rest != [] && rest[0] != '"' && !IsBlank(rest[0])
    ensures TokenizeWord(rest, unquote)
         == Prepend(rest[..IndexOfBlank(rest)], Tokenize(rest[IndexOfBlank(rest)..], unquote))
  {
  }

  /** One round of the loop on a well-formed quoted word. */
  lemma TokenizeWordQuoted(rest: string, unquote: string -> Option<string>, close: nat)
    requires rest != [] && rest[0] == '"'
    requires ScanQuoted(rest, 1) == Closed(close)
    ensures unquote(rest[..close + 1]).None? ==> TokenizeWord(rest, unquote) == Failure(BadQuotedString)
    ensures unquote(rest[..close + 1]).Some? && close + 1 < |rest| && !IsBlank(rest[close + 1]) ==>
              TokenizeWord(rest, unquote) == Failure(ExpectSpaceAfterQuote)
    ensures unquote(rest[..close + 1]).Some? && (close + 1 == |rest| || IsBlank(rest[close + 1])) ==>
              TokenizeWord(rest, unquote)
              == Prepend(unquote(rest[..close + 1]).value, Tokenize(rest[close + 1..], unquote))
  {
  }

  /** When no word starts with a double quote the tokenizer never fails and
      continues the reference scanner: its words are the maximal runs of
      non-blank characters, in order. */
  lemma {:induction false} UnquotedTokenizeIsFields(line: string, unquote: string -> Option<string>, acc: seq<string>)
    requires NoQuotedWord(line)
    ensures Tokenize(line, unquote).Success?
    ensures FieldsFrom(line, [], acc) == acc + Tokenize(line, unquote).value
    decreases |line|
  {
    var rest := TrimLeft(line);
    if rest != [] {
      var i := IndexOfBlank(rest);
      var w, tail := rest[..i], rest[i..];
      UnquotedStep(line);
      FieldsFirstWord(line, acc);
      UnquotedTokenizeIsFields(tail, unquote, acc + [w]);
      var ws := Tokenize(tail, unquote).value;
      assert Tokenize(line, unquote) == Success([w] + ws) by {
        UnquotedRound(line, unquote);
      }
      AppendAssoc(acc, w, ws);
    } else {
      var d := |line| - |rest|;
      assert FieldsFrom(line, [], acc) == FieldsFrom(rest, [], acc) by {
        assert line == line[..d] + rest;
        FieldsSkipBlanks(line[..d], rest, acc);
      }
      assert Tokenize(line, unquote) == TokenizeWord(rest, unquote) == Success([]);
      assert acc + [] == acc;
    }
  }

  /** The reference scanner skips the leading blanks and takes the first
      word, as one round of `split` does. */
  lemma FieldsFirstWord(line: string, acc: seq<string>)
    requires TrimLeft(line) != []
    ensures var rest := TrimLeft(line);
            var i := IndexOfBlank(rest);
            && 0 < i && |rest[i..]| < |line|
            && FieldsFrom(line, [], acc) == FieldsFrom(rest[i..], [], acc + [rest[..i]])
  {
    var rest := TrimLeft(line);
    var d := |line| - |rest|;
    assert FieldsFrom(line, [], acc) == FieldsFrom(rest, [], acc) by {
      assert line == line[..d] + rest;
      FieldsSkipBlanks(line[..d], rest, acc);
    }
    FieldsTakeWordThenEnd(rest, IndexOfBlank(rest), acc);
  }

  /** Stated apart because in the context of the induction above the
      solver does not find it within its resource limit. */
  lemma AppendAssoc(acc: seq<string>, w: string, ws: seq<string>)
    ensures acc + [w] + ws == acc + ([w] + ws)
  {
  }

  /** One round on such input: the word found is unquoted and what follows
      it keeps the property. */
  lemma UnquotedStep(line: string)
    requires NoQuotedWord(line) && TrimLeft(line) != []
    ensures TrimLeft(line)[0] != '"'
    ensures NoQuotedWord(TrimLeft(line)[IndexOfBlank(TrimLeft(line))..])
  {
    var rest := TrimLeft(line);
    TrimmedStart(line);
    NoQuotedWordSuffix(line, |line| - |rest|);
    NoQuotedWordSuffix(rest, IndexOfBlank(rest));
  }

  /** The first character `TrimLeft` keeps does not start a quoted word. */
  lemma TrimmedStart(line: string)
    requires NoQuotedWord(line) && TrimLeft(line) != []
    ensures TrimLeft(line)[0] != '"'
  {
    var rest := TrimLeft(line);
    var d := |line| - |rest|;
    assert rest[0] == line[d];
    assert !StartsQuotedWord(line, d);
    if d > 0 {
      assert line[d - 1] == line[..d][d - 1];
    }
  }

  /** The round `split` makes on such input: an unquoted word, then the rest. */
  lemma UnquotedRound(line: string, unquote: string -> Option<string>)
    requires TrimLeft(line) != [] && TrimLeft(line)[0] != '"'
    ensures var rest := TrimLeft(line);
            Tokenize(line, unquote)
            == Prepend(rest[..IndexOfBlank(rest)], Tokenize(rest[IndexOfBlank(rest)..], unquote))
  {
    TokenizeWordPlain(TrimLeft(line), unquote);
  }

  /** Cutting anywhere but right before a double quote keeps the property. */
  lemma NoQuotedWordSuffix(line: string, n: nat)
    requires NoQuotedWord(line) && n <= |line|
    requires n == |line| || line[n] != '"'
    ensures NoQuotedWord(line[n..])
  {
    var s := line[n..];
    forall k | 0 <= k < |s|
      ensures !StartsQuotedWord(s, k)
    {
      assert !StartsQuotedWord(line, n + k);
      if k > 0 {
        assert s[k - 1] == line[n + k - 1];
      }
    }
  }

  /** The scanner reads the leading word of `rest` and closes it at the
      blank (or end) that follows. */
  lemma FieldsTakeWordThenEnd(rest: string, i: nat, acc: seq<string>)
    requires i == IndexOfBlank(rest) && rest != [] && !IsBlank(rest[0])
    ensures FieldsFrom(rest, [], acc) == FieldsFrom(rest[i..], [], acc + [rest[..i]])
  {
    var w, tail := rest[..i], rest[i..];
    assert rest == w + tail;
    FieldsTakeWord(w, tail, [], acc);
    assert [] + w == w;
    FieldsEndWord(tail, w, acc);
  }

  lemma FieldsEndWord(tail: string, w: string, acc: seq<string>)
    requires w != []
    requires tail == [] || IsBlank(tail[0])
    ensures FieldsFrom(tail, w, acc) == FieldsFrom(tail, [], acc + [w])
  {
  }

  /** When no word starts with a double quote, `split` before expansion is
      exactly `Fields`. */
  lemma UnquotedIsFields(line: string, unquote: string -> Option<string>)
    requires NoQuotedWord(line)
    ensures Tokenize(line, unquote) == Success(Fields(line))
  {
    UnquotedTokenizeIsFields(line, unquote, []);
    assert [] + Tokenize(line, unquote).value == Tokenize(line, unquote).value;
  }

  /** When no word starts with a double quote, every word is non-empty and
      blank-free. */
  lemma UnquotedWordsAreFields(line: string, unquote: string -> Option<string>)
    requires NoQuotedWord(line)
    ensures Tokenize(line, unquote).Success?
    ensures forall i :: 0 <= i < |Tokenize(line, unquote).value| ==> Field(Tokenize(line, unquote).value[i])
  {
    UnquotedIsFields(line, unquote);
    FieldsAreFields(line);
  }

  /** A word that survives a round trip through `Join` unquoted. */
  predicate PlainWord(w: string) {
    && w != []
    && w[0] != '"'
    && forall k :: 0 <= k < |w| ==> !IsBlank(w[k])
  }

  /** A plain word followed by a blank or the end of input is taken whole. */
  lemma PlainWordFirst(w: string, tail: string, unquote: string -> Option<string>)
    requires PlainWord(w)
    requires tail == [] || IsBlank(tail[0])
    ensures Tokenize(w + tail, unquote) == Prepend(w, Tokenize(tail, unquote))
  {
    var line := w + tail;
    assert line[0] == w[0];
    assert TrimLeft(line) == line;
    IndexOfBlankOfWord(w, tail);
    assert line[..|w|] == w && line[|w|..] == tail;
    TokenizeWordPlain(line, unquote);
  }

  /** Plain words joined with single spaces tokenize back to the same words. */
  lemma {:induction false} JoinRoundTrip(words: seq<string>, unquote: string -> Option<string>)
    requires forall i :: 0 <= i < |words| ==> PlainWord(words[i])
    ensures Tokenize(Join(words, " "), unquote) == Success(words)
  {
    if |words| == 1 {
      JoinSingle(words[0], unquote);
      assert words == [words[0]];
    } else if |words| > 1 {
      JoinRoundTrip(words[1..], unquote);
      JoinCons(words[0], words[1..], unquote);
      assert [words[0]] + words[1..] == words;
    }
  }

  lemma JoinSingle(w: string, unquote: string -> Option<string>)
    requires PlainWord(w)
    ensures Tokenize(Join([w], " "), unquote) == Success([w])
  {
    var e: string := [];
    assert w + e == w;
    PlainWordFirst(w, e, unquote);
    assert Tokenize(e, unquote) == Success([]);
    assert [w] + [] == [w];
  }

  lemma JoinCons(w: string, words: seq<string>, unquote: string -> Option<string>)
    requires PlainWord(w) && words != []
    requires Tokenize(Join(words, " "), unquote) == Success(words)
    ensures Tokenize(Join([w] + words, " "), unquote) == Success([w] + words)
  {
    var rest := Join(words, " ");
    var line := Join([w] + words, " ");
    JoinUnfold(w, words);
    assert line == w + (" " + rest);
    PlainWordFirst(w, " " + rest, unquote);
    SpaceIsTrimmed(rest, unquote);
    assert Tokenize(line, unquote) == Prepend(w, Success(words));
  }

  lemma JoinUnfold(w: string, words: seq<string>)
    requires words != []
    ensures Join([w] + words, " ") == w + (" " + Join(words, " "))
  {
    assert ([w] + words)[1..] == words;
  }

  /** A word as it may appear on a command line: plain, or a quoted span
      that `Unquote` accepts. */
  predicate Token(t: string, unquote: string -> Option<string>) {
    PlainWord(t) || (QuotedSpan(t) && unquote(t).Some?)
  }

  /** The word the tokenizer makes of a token. */
  function Decode(t: string, unquote: string -> Option<string>): string
    requires Token(t, unquote)
  {
    if PlainWord(t) then t else unquote(t).value
  }

  /** `Decode` applied to each token, in order. */
  function Decoded(ts: seq<string>, unquote: string -> Option<string>): (r: seq<string>)
    requires forall i :: 0 <= i < |ts| ==> Token(ts[i], unquote)
    ensures |r| == |ts|
  {
    if ts == [] then [] else [Decode(ts[0], unquote)] + Decoded(ts[1..], unquote)
  }

  /** A quoted span followed by a blank or the end of input is unquoted whole. */
  lemma QuotedFirst(t: string, tail: string, unquote: string -> Option<string>)
    requires QuotedSpan(t) && unquote(t).Some?
    requires tail == [] || IsBlank(tail[0])
    ensures Tokenize(t + tail, unquote) == Prepend(unquote(t).value, Tokenize(tail, unquote))
  {
    var e: string := [];
    var line := t + tail;
    assert e + t + tail == line;
    LeadingQuotedWord(e, t, tail, unquote);
  }

  lemma TokenFirst(t: string, tail: string, unquote: string -> Option<string>)
    requires Token(t, unquote)
    requires tail == [] || IsBlank(tail[0])
    ensures Tokenize(t + tail, unquote) == Prepend(Decode(t, unquote), Tokenize(tail, unquote))
  {
    if PlainWord(t) {
      PlainWordFirst(t, tail, unquote);
    } else {
      QuotedFirst(t, tail, unquote);
    }
  }

  /** Plain words and accepted quoted spans, joined with single spaces,
      tokenize back to the plain words and the unquoted spans, in order. */
  lemma {:induction false} MixedJoinRoundTrip(ts: seq<string>, unquote: string -> Option<string>)
    requires forall i :: 0 <= i < |ts| ==> Token(ts[i], unquote)
    ensures Tokenize(Join(ts, " "), unquote) == Success(Decoded(ts, unquote))
  {
    if |ts| == 1 {
      var e: string := [];
      assert Join(ts, " ") == ts[0] + e;
      TokenFirst(ts[0], e, unquote);
      assert Tokenize(e, unquote) == Success([]);
      assert Decoded(ts, unquote) == [Decode(ts[0], unquote)] + [];
    } else if |ts| > 1 {
      var rest := Join(ts[1..], " ");
      MixedJoinRoundTrip(ts[1..], unquote);
      JoinUnfold(ts[0], ts[1..]);
      assert [ts[0]] + ts[1..] == ts;
      TokenFirst(ts[0], " " + rest, unquote);
      SpaceIsTrimmed(rest, unquote);
    }
  }

  lemma {:induction false} IndexOfBlankOfWord(w: string, tail: string)
    requires forall k :: 0 <= k < |w| ==> !IsBlank(w[k])
    requires tail == [] || IsBlank(tail[0])
    ensures IndexOfBlank(w + tail) == |w|
  {
    if w == [] {
      assert w + tail == tail;
    } else {
      assert (w + tail)[0] == w[0];
      assert (w + tail)[1..] == w[1..] + tail;
      IndexOfBlankOfWord(w[1..], tail);
    }
  }

  /** Leading blanks, such as the separator left after the directive tag,
      change nothing. */
  lemma TokenizeTrimsLeft(blanks: string, s: string, unquote: string -> Option<string>)
    requires AllBlank(blanks)
    ensures Tokenize(blanks + s, unquote) == Tokenize(s, unquote)
  {
    TrimLeftBlanks(blanks, s);
  }

  /** The single space after the directive tag is trimmed. */
  lemma SpaceIsTrimmed(rest: string, unquote: string -> Option<string>)
    ensures Tokenize(" " + rest, unquote) == Tokenize(rest, unquote)
  {
    assert AllBlank(" ");
    TokenizeTrimsLeft(" ", rest, unquote);
  }

  /** The escape structure of a prefix is the prefix's own. */
  lemma {:induction false} BackslashRunPrefix(q: string, after: string, k: nat)
    requires k <= |q|
    ensures BackslashRun(q + after, k) == BackslashRun(q, k)
  {
    if k > 0 {
      assert (q + after)[k - 1] == q[k - 1];
      BackslashRunPrefix(q, after, k - 1);
    }
  }

  /** A quoted span: opening quote, closing quote, and every double quote in
      between escaped by the backslash skipping of `split`. */
  predicate QuotedSpan(q: string) {
    && |q| >= 2
    && q[0] == '"'
    && q[|q| - 1] == '"'
    && !Escaped(q, |q| - 1)
    && forall k :: 1 <= k < |q| - 1 && q[k] == '"' ==> Escaped(q, k)
  }

  /** The scan of a quoted span stops at the span's own closing quote,
      whatever follows it. */
  lemma QuotedSpanCloses(q: string, after: string)
    requires QuotedSpan(q)
    ensures ScanQuoted(q + after, 1) == Closed(|q| - 1)
  {
    var line := q + after;
    var c := |q| - 1;
    BackslashRunPrefix(q, after, c);
    BackslashRunPrefix(q, after, 1);
    assert line[c] == '"' && !Escaped(line, c);
    forall k | 1 <= k < c && line[k] == '"'
      ensures Escaped(line, k)
    {
      assert q[k] == '"';
      BackslashRunPrefix(q, after, k);
    }
  }

  /** A leading quoted word: an escaped quote does not end it, the word is
      `Unquote` of the whole span quotes included, and after the closing
      quote only a blank or the end of input may follow. */
  lemma LeadingQuotedWord(blanks: string, q: string, after: string, unquote: string -> Option<string>)
    requires AllBlank(blanks)
    requires QuotedSpan(q)
    ensures unquote(q).None? ==> Tokenize(blanks + q + after, unquote) == Failure(BadQuotedString)
    ensures unquote(q).Some? && after != [] && !IsBlank(after[0]) ==>
              Tokenize(blanks + q + after, unquote) == Failure(ExpectSpaceAfterQuote)
    ensures unquote(q).Some? && (after == [] || IsBlank(after[0])) ==>
              Tokenize(blanks + q + after, unquote) == Prepend(unquote(q).value, Tokenize(after, unquote))
  {
    var line := q + after;
    assert blanks + q + after == blanks + line;
    TokenizeTrimsLeft(blanks, line, unquote);
    assert line[0] == '"';
    assert Tokenize(line, unquote) == TokenizeWord(line, unquote);
    QuotedSpanCloses(q, after);
    var c := |q| - 1;
    assert line[..c + 1] == q && line[c + 1..] == after;
    TokenizeWordQuoted(line, unquote, c);
  }

  /** A leading quote with no unescaped closing quote fails: with "bad
      backslash" when the input ends in an unescaped backslash, otherwise
      with "mismatched quoted string". */
  lemma UnclosedQuote(blanks: string, q: string, unquote: string -> Option<string>)
    requires AllBlank(blanks)
    requires q != [] && q[0] == '"'
    requires forall k :: 1 <= k < |q| && q[k] == '"' ==> Escaped(q, k)
    ensures q[|q| - 1] == '\\' && !Escaped(q, |q| - 1) ==> Tokenize(blanks + q, unquote) == Failure(BadBackslash)
    ensures !(q[|q| - 1] == '\\' && !Escaped(q, |q| - 1)) ==> Tokenize(blanks + q, unquote) == Failure(MismatchedQuote)
  {
    TokenizeTrimsLeft(blanks, q, unquote);
    UnclosedScan(q);
    TokenizeWordUnclosed(q, unquote);
  }

  lemma UnclosedScan(q: string)
    requires q != [] && q[0] == '"'
    requires forall k :: 1 <= k < |q| && q[k] == '"' ==> Escaped(q, k)
    ensures !ScanQuoted(q, 1).Closed?
  {
  }

  lemma TokenizeWordUnclosed(q: string, unquote: string -> Option<string>)
    requires q != [] && q[0] == '"'
    requires !ScanQuoted(q, 1).Closed?
    ensures Tokenize(q, unquote)
            == if ScanQuoted(q, 1).DanglingBackslash? then Failure(BadBackslash) else Failure(MismatchedQuote)
  {
    assert TrimLeft(q) == q;
  }
}

=== FILE: wrappers.dfy ===
/** The wrappers used throughout the model: `Option` for Go's results that
    may be nil and `Result` for Go's `(value, error)` pairs. */
module Wrappers {

  datatype Option<+T> = None | Some(value: T)

  datatype Result<+T, +E> = Success(value: T) | Failure(error: E)
}
